=== FILE: README.md ===
# old-reddit-puppeteer: the post picker and the vote reconciler, in Dafny

`oldreddit.ts` logs into old reddit, opens r/gaming and votes on one post. It
picks the `TARGET_POST_NUMBER`-th post of the listing that is not pinned or
promoted and has a title. It upvotes that post if its title mentions
"nintendo" in any letter case, and downvotes it otherwise. The vote is cast
only if it is not already cast, so running the script again leaves the page
alone. This project models that decision pipeline and proves its properties:

- `Dom`: a `Thing` per `div.thing` element, holding what the script reads
  from it. That is the class name, `data-promoted`, the title text, the
  permalink and fullname attributes, and the up and down arrows with their
  `upmod`/`downmod` markers.
- `Text`: `toLowerCase`, `includes` and `trim`, each proved against a
  declarative definition. `trim` strips the ECMAScript white-space and
  line-terminator set.
- `Scanner`: the eligible-post callback, as a method with the source's loop,
  `continue`s and `break`. It is proved against `Eligible`, the pure list of
  eligible posts.
- `Classifier`: `containsNintendo` and the decision it drives.
- `Reconciler`: the voting callback, as the pure function `Reconcile` and as
  `Page.Vote`, a method on a `Page` class that counts clicks. `Page.Run` and
  `Pipeline` model step 5 as a whole: scan, decide, vote.
- `Scenarios`: worked examples on small listings.

## Behaviour worth knowing

- Eligibility is read from the raw class name (any mention of "stickied" or
  "promoted" after lower-casing) and from the `data-promoted` attribute
  (skipped unless absent, empty or "false"), lines 112-119.
- A missing or empty `data-fullname` becomes null (line 137). The lookup
  selector prints null as the text `null` (line 167), so such a post is
  looked up as if its fullname were literally "null"
  (`NullFullnameReadsAsText`). The lookup takes the first match in document
  order, eligible or not, so when a skipped post earlier in the listing
  shares the target's fullname, the lookup lands on that post: its arrows
  are the ones read and, if a click happens, clicked
  (`SharedFullnameClicksPinned`).
- If both `upmod` and `downmod` are set and the decision is a downvote, the
  script reports `ALREADY_SELECTED` with `current: UPVOTED` and clicks
  nothing (lines 195-196): the test reads the down marker, the report
  prefers the up marker. `BothMarkersOnDownvote` states this.
- The keyword is the single fixed word "nintendo" (line 246).

`Pressed` is how the page, not the script, answers a click. Clicking an
arrow whose marker is set withdraws the vote. Clicking any other arrow sets
its marker and clears the other arrow's marker. The lemmas about running
twice (`ReconcileTwice`, `RerunIssuesNoClick`) rely on this assumption.

## Model

| member | source | states |
|---|---|---|
| Text.LowerForgetsCase | oldreddit.ts:112 | lower-casing is idempotent, and lower-casing an upper-cased string gives the same as lower-casing the original |
| Text.Lower | oldreddit.ts:112 | `toLowerCase` keeps the length and lower-cases each character on its own (ASCII letters only) |
| Text.Includes | oldreddit.ts:117-118 | `includes(sub)` holds exactly when `sub` occurs at some index of the string |
| Text.LeadingSpace | oldreddit.ts:127 | the count of leading characters that are all whitespace and are followed by a non-whitespace character or the end |
| Text.TrailingStart | oldreddit.ts:127 | the length before a tail that is all whitespace and is preceded by a non-whitespace character or the start |
| Text.Trim | oldreddit.ts:127-128 | `trim` returns a contiguous middle part, with only whitespace outside it and no whitespace at either end; it is empty exactly when the text is all whitespace |
| Text.TrimOfTrimmed | oldreddit.ts:127 | a string with no whitespace at either end is its own trim |
| Text.TrimIdempotent | oldreddit.ts:127 | trimming twice equals trimming once |
| Scanner.OrNull | oldreddit.ts:135-137 | `getAttribute(..) \|\| null`: null exactly when the attribute is missing or empty; otherwise the attribute unchanged |
| Scanner.IsEligible | oldreddit.ts:116-128 | an eligible post has a title element whose trimmed text is non-empty |
| Scanner.ToCandidate | oldreddit.ts:131-138 | the pushed record: the title with only surrounding whitespace dropped and no whitespace at its ends; permalink and fullname copied unchanged when present and non-empty, null otherwise |
| Scanner.PassesChecksIffEligible | oldreddit.ts:112-128 | the loop's `continue` tests, in their order, keep exactly the posts that satisfy the declarative eligibility definition |
| Scanner.Eligible | oldreddit.ts:109-138 | eligible posts in document order, duplicates kept, one record per eligible post; every recorded title is non-empty and trimmed |
| Scanner.EligibleSnoc | oldreddit.ts:110-138 | one more post at the end adds its record exactly when it is eligible |
| Scanner.EligibleAppend | oldreddit.ts:110-142 | the eligible list of a concatenation is the concatenation of the eligible lists |
| Scanner.IneligibleIgnored | oldreddit.ts:116-128 | inserting an ineligible post anywhere leaves the eligible list unchanged |
| Scanner.EligibleAt | oldreddit.ts:131-138 | an eligible post at index j is recorded at the position given by the number of eligible posts before it, with its trimmed title and null-or-non-empty attributes |
| Scanner.EligibleOrigin | oldreddit.ts:131-138 | every record comes from an eligible post that has exactly as many eligible posts before it as the record's position |
| Scanner.ShortCircuit | oldreddit.ts:141 | once a prefix holds n eligible posts, any posts appended after it leave the n-th eligible post unchanged |
| Scanner.FindTargetEligible | oldreddit.ts:103-146 | returns the targetCount-th eligible post, or null exactly when fewer than targetCount posts are eligible; the loop invariant keeps the accumulator equal to the eligible posts seen so far and below targetCount |
| Classifier.MatchesAtIffOccurs | oldreddit.ts:245-247 | a case-insensitive match of "nintendo" at index i is an occurrence of "nintendo" at i in the lower-cased title |
| Classifier.ContainsNintendo | oldreddit.ts:245-247 | true exactly when "nintendo" matches at some index of the title, letter by letter, in any ASCII case |
| Classifier.Decide | oldreddit.ts:156 | WOULD_UPVOTE exactly when "nintendo" matches somewhere in the title in any ASCII letter case, WOULD_DOWNVOTE otherwise |
| Classifier.DecideIgnoresCase | oldreddit.ts:156 | two titles that agree once lower-cased get the same decision |
| Classifier.DecideUnderCaseChange | oldreddit.ts:156 | upper-casing or lower-casing a title does not change its decision |
| Classifier.KeywordAnywhereUpvotes | oldreddit.ts:156 | a title containing "nintendo", in any letter case and at any position, gives WOULD_UPVOTE |
| Reconciler.FindThing | oldreddit.ts:167 | the index of the first thing whose fullname is the key, or none exactly when no thing has it |
| Reconciler.SelectorValue | oldreddit.ts:167 | `${fullname}` prints a fullname as itself and null as the text "null" |
| Reconciler.Shown | oldreddit.ts:202 | UPVOTED exactly when `upmod` is set; DOWNVOTED exactly when only `downmod` is set; NONE when neither is |
| Reconciler.Reconcile | oldreddit.ts:165-203 | NOT_FOUND exactly when no thing has the fullname; ARROW_NOT_FOUND with each arrow's presence when an arrow is missing; ALREADY_SELECTED exactly when the decision's marker is set, carrying UPVOTED when `upmod` is set and DOWNVOTED otherwise; otherwise CLICKED with the prior vote (up before down before none); a click happens iff CLICKED, on the decision's arrow of the found thing |
| Reconciler.Pressed | oldreddit.ts:201 | a click changes only the two arrows and leaves both present |
| Reconciler.ReconcileClickApplies | oldreddit.ts:199-201 | the click the callback issues targets an existing thing with both arrows |
| Reconciler.ReconcileReachesWanted | oldreddit.ts:199-202 | after a CLICKED result, the post shows exactly the vote the decision asks for |
| Reconciler.ReconcileTwice | oldreddit.ts:189-197 | a second call on the page the first left behind never clicks: after CLICKED it reports ALREADY_SELECTED with the wanted vote, otherwise it repeats the first result |
| Reconciler.SameFullnamesSameLookup | oldreddit.ts:167 | the lookup reads only the fullnames |
| Reconciler.NullFullnameReadsAsText | oldreddit.ts:167 | voting for a post without a fullname behaves exactly as voting for the fullname "null" |
| Reconciler.BothMarkersOnDownvote | oldreddit.ts:195-196 | with both markers set, a downvote decision gives ALREADY_SELECTED with current UPVOTED and no click |
| Reconciler.Pipeline | oldreddit.ts:145-203 | no eligible post exactly when fewer than targetCount are eligible; otherwise the target is the targetCount-th eligible post, the decision is taken on its title, and the result and click are the voting callback's on the target's fullname and that decision; a click happens exactly when the vote reports CLICKED, its direction is fixed by the target's title, and it lands on the first thing carrying the target's printed fullname |
| Reconciler.PressKeepsEligible | oldreddit.ts:110-138 | a click never changes which posts are eligible or their records |
| Reconciler.RerunIssuesNoClick | oldreddit.ts:189-197 | a second run on the page the first run left behind picks the same post, takes the same decision and issues no click; after a click it reports ALREADY_SELECTED |
| Reconciler.Page.Click | oldreddit.ts:200-201 | one click on one arrow: the page becomes the pressed page and the click count grows by one |
| Reconciler.Page.Vote | oldreddit.ts:165-203 | the result and new page are those of `Reconcile`, and the click count grows by one exactly when the result is CLICKED |
| Reconciler.Page.Run | oldreddit.ts:103-203 | the outcome and new page are those of `Pipeline`, and the click count grows by one exactly when `Pipeline` issues its one click |
| Scenarios.FirstLetterAbsent | oldreddit.ts:117-118 | a string where the first letter of `sub` never starts a long enough suffix does not include `sub` |
| Scenarios.PlainPostEligible | oldreddit.ts:110-138 | a plain post with a trimmed, non-empty title is eligible and keeps that title |
| Scenarios.StickiedPostIneligible | oldreddit.ts:117 | a post with class name "thing stickied" is not eligible |
| Scenarios.PinnedListing | oldreddit.ts:109-142 | with a pinned post first, the eligible list holds the other two posts in order |
| Scenarios.PatchNotesDownvotes | oldreddit.ts:156 | "Patch notes" gives WOULD_DOWNVOTE |
| Scenarios.PinnedTarget | oldreddit.ts:109-145 | in the pinned listing, two posts are eligible and the second is "Patch notes" with its permalink and fullname |
| Scenarios.PinnedVote | oldreddit.ts:165-203 | a downvote on "t3_c", whose arrows are unset, is CLICKED with previous NONE and clicks the third thing's down arrow |
| Scenarios.PinnedPostIsSkipped | oldreddit.ts:103-203 | pinned post, then "Nintendo Direct announced", then "Patch notes", target 2: the pick is "Patch notes", the decision is a downvote, and the third thing's down arrow is clicked |
| Scenarios.CapitalisedKeywordUpvotes | oldreddit.ts:245-247 | "New Nintendo Switch bundle" gives WOULD_UPVOTE |
| Scenarios.UpvoteAlreadyCast | oldreddit.ts:195-196 | an upvote decision on a post with `upmod` set gives ALREADY_SELECTED(UPVOTED) and no click |
| Scenarios.SharedFullnameClicksPinned | oldreddit.ts:110-169 | with a pinned post and an eligible "Patch notes" post both carrying fullname "t3_x", target 1 picks "Patch notes" and decides a downvote, but the click lands on the pinned post, thing 0 |
| Scenarios.UnknownFullname | oldreddit.ts:167-169 | a fullname that no post carries gives NOT_FOUND and no click |

## Left out

- Credential loading (lines 1-14): `dotenv`, the environment checks and `process.exit` are process I/O.
- Browser automation (lines 18-100, 228-241): launching, navigation, the cookie banner, login, subreddit search, the URL check and logout drive Puppeteer. That is not part of this model.
- Screenshots and console logging (throughout, including lines 158-162 and 205-226) are diagnostics only.
- `delay`, `setTimeout` and the async structure (lines 250-254) are timing, not logic.
- `scrollIntoView` (line 172) has no effect on the result. The `innerHTML.substring(0, 500)` snippet in ARROW_NOT_FOUND (line 183) is dropped from `ArrowNotFound`.
- CSS selectors: the arrow selectors (lines 176-177) become "first matching arrow, if any". The attribute selector of line 167 becomes an exact comparison of fullnames. A fullname containing a quote or backslash, which would change or break the selector, is not modelled.
- Unicode case folding: `Lower` and `LowerChar` fold ASCII letters only. JavaScript's `toLowerCase` also folds other letters, some onto ASCII ones (U+212A KELVIN SIGN becomes "k"), which can matter for the class-name tests. The `/i` test without the `u` flag maps no non-ASCII character onto an ASCII one, so `MatchesAt` is exact for "nintendo".
- `thing.className || ""` and `titleEl.textContent || ""` (lines 112, 127): the class name and title text are modelled as strings that are always present, the values these properties have on HTML elements.
- `targetCount < 1` is a caller error in the source: `eligible[targetCount - 1]` is then `undefined`, and the script throws at line 150. `FindTargetEligible`, `Pipeline` and `Page.Run` require `targetCount >= 1`.
- The page's answer to a click (`Pressed`) belongs to old reddit, not to the script. It is an assumption of the model.
- The scan and the vote are two `page.evaluate` calls on the same page. The model gives them the same `things`; changes to the page in between (new posts loading, other voters) are not modelled.

=== FILE: classifier.dfy ===
/** The vote decision: `containsNintendo` and the expression that turns its
    answer into "WOULD_UPVOTE" or "WOULD_DOWNVOTE". */
module Classifier {
  import opened Text

  datatype Decision = WouldUpvote | WouldDownvote

  /** The one keyword of the `/nintendo/i` test, in lower case. */
  const Keyword: string := "nintendo"

  /** The keyword matches `s` at index `i`, each letter compared without
      regard to ASCII letter case: what `/nintendo/i` accepts there. */
  predicate MatchesAt(s: string, i: int)
  {
    0 <= i && i + |Keyword| <= |s| &&
    forall k :: 0 <= k < |Keyword| ==> LowerChar(s[i + k]) == Keyword[k]
  }

  /** A case-insensitive match at `i` is an occurrence of the keyword in the
      lower-cased string. */
  lemma MatchesAtIffOccurs(s: string, i: int)
    ensures MatchesAt(s, i) <==> OccursAt(Lower(s), Keyword, i)
  {
    if 0 <= i && i + |Keyword| <= |s| {
      var w := Lower(s)[i..i + |Keyword|];
      assert forall k :: 0 <= k < |Keyword| ==> w[k] == LowerChar(s[i + k]);
    }
  }

  /** `containsNintendo`: true exactly when the keyword matches somewhere in
      the title, in any ASCII letter case. */
  function ContainsNintendo(title: string): (b: bool)
    ensures b <==> exists i :: 0 <= i <= |title| && MatchesAt(title, i)
  {
    assert forall i :: MatchesAt(title, i) <==> OccursAt(Lower(title), Keyword, i) by {
      forall i ensures MatchesAt(title, i) <==> OccursAt(Lower(title), Keyword, i) {
        MatchesAtIffOccurs(title, i);
      }
    }
    Includes(Lower(title), Keyword)
  }

  /** The decision taken for the target post's title: an upvote exactly
      when the keyword matches somewhere in it, in any ASCII letter case. */
  function Decide(title: string): (d: Decision)
    ensures d == WouldUpvote <==> exists i :: 0 <= i <= |title| && MatchesAt(title, i)
  {
    if ContainsNintendo(title) then WouldUpvote else WouldDownvote
  }

  /** The decision is blind to letter case: two titles that agree once
      lower-cased get the same decision. */
  lemma DecideIgnoresCase(a: string, b: string)
    requires |a| == |b|
    requires forall k :: 0 <= k < |a| ==> LowerChar(a[k]) == LowerChar(b[k])
    ensures Decide(a) == Decide(b)
  {
    forall i | 0 <= i <= |a|
      ensures MatchesAt(a, i) <==> MatchesAt(b, i)
    {
      if MatchesAt(a, i) { assert forall k :: 0 <= k < |Keyword| ==> LowerChar(b[i + k]) == Keyword[k]; }
      if MatchesAt(b, i) { assert forall k :: 0 <= k < |Keyword| ==> LowerChar(a[k + i]) == Keyword[k]; }
    }
  }

  /** Upper- or lower-casing a title leaves its decision unchanged. */
  lemma DecideUnderCaseChange(title: string)
    ensures Decide(Upper(title)) == Decide(title)
    ensures Decide(Lower(title)) == Decide(title)
  {
    LowerForgetsCase(title);
    DecideIgnoresCase(Upper(title), title);
    DecideIgnoresCase(Lower(title), title);
  }

  /** A title containing the keyword, written in any letter case, anywhere,
      gets an upvote. */
  lemma KeywordAnywhereUpvotes(before: string, word: string, after: string)
    requires Lower(word) == Keyword
    ensures Decide(before + word + after) == WouldUpvote
  {
    var t := before + word + after;
    assert forall k :: 0 <= k < |Keyword| ==> t[|before| + k] == word[k];
    assert MatchesAt(t, |before|);
  }
}

=== FILE: dom.dfy ===
/** The page snapshot the script reads: one `Thing` per `div.thing` element
    of an old-reddit listing, in document order. */
module Dom {

  datatype Option<+T> = None | Some(value: T)

  /** A vote arrow; `active` is its `upmod` (up arrow) or `downmod`
      (down arrow) class, the marker of a vote already cast. */
  datatype Arrow = Arrow(active: bool)

  /** One `div.thing` element, with what the script reads from it.
      `dataPromoted` is `dataset.promoted` (None when undefined);
      `titleText` is the text content of its first `a.title` (None when it
      has none); `permalink` and `fullname` are the `data-permalink` and
      `data-fullname` attributes; the arrows are the first elements that the
      up and down arrow selectors match (None when there is none). */
  datatype Thing = Thing(
    className: string,
    dataPromoted: Option<string>,
    titleText: Option<string>,
    permalink: Option<string>,
    fullname: Option<string>,
    upArrow: Option<Arrow>,
    downArrow: Option<Arrow>)
}

=== FILE: reconciler.dfy ===
/** The voting step: look the target post up by its fullname, find its two
    arrows, read their `upmod`/`downmod` markers, and either report that the
    wanted vote is already cast or click the one arrow that casts it. Then
    step 5 of the script as a whole: scan, decide, vote. */
module Reconciler {
  import opened Dom
  import opened Scanner
  import opened Classifier

  /** The vote a post shows: "UPVOTED", "DOWNVOTED" or "NONE". */
  datatype VoteState = Upvoted | Downvoted | NoVote

  /** The object the voting callback returns, one variant per `state`. */
  datatype VotingResult =
    | NotFound
    | ArrowNotFound(upFound: bool, downFound: bool)
    | AlreadySelected(current: VoteState)
    | Clicked(previous: VoteState)

  datatype Direction = Up | Down

  /** One `click()` on the arrow `direction` of the thing at `index`. */
  datatype Press = Press(index: nat, direction: Direction)

  /** What one call of the voting callback does: its result and the click it
      issues, if any. */
  datatype Reaction = Reaction(result: VotingResult, click: Option<Press>)

  /** The text `${fullname}` puts into the selector: a fullname prints as
      itself and null prints as "null". */
  function SelectorValue(fullname: Option<string>): (v: string)
    ensures fullname.Some? ==> v == fullname.value
    ensures fullname.None? ==> v == "null"
  {
    if fullname.Some? then fullname.value else "null"
  }

  /** `document.querySelector('div.thing[data-fullname="key"]')`: the index
      of the first thing, in document order, whose `data-fullname` is `key`. */
  function FindThing(things: seq<Thing>, key: string): (r: Option<nat>)
    ensures r.Some? ==> r.value < |things| && things[r.value].fullname == Some(key)
    ensures r.Some? ==> forall j :: 0 <= j < r.value ==> things[j].fullname != Some(key)
    ensures r.None? ==> forall j :: 0 <= j < |things| ==> things[j].fullname != Some(key)
  {
    if things == [] then None
    else if things[0].fullname == Some(key) then Some(0)
    else match FindThing(things[1..], key)
      case None => None
      case Some(i) => Some(i + 1)
  }

  /** Both arrows of a thing were found. */
  predicate HasArrows(t: Thing)
  {
    t.upArrow.Some? && t.downArrow.Some?
  }

  /** The arrow a decision clicks. */
  function ArrowFor(decision: Decision): Direction
  {
    if decision == WouldUpvote then Up else Down
  }

  /** The vote a decision asks for. */
  function StateFor(decision: Decision): VoteState
  {
    if decision == WouldUpvote then Upvoted else Downvoted
  }

  /** The marker of the arrow `decision` clicks is set: the vote is cast. */
  predicate WantedActive(t: Thing, decision: Decision)
    requires HasArrows(t)
  {
    if decision == WouldUpvote then t.upArrow.value.active else t.downArrow.value.active
  }

  /** The vote a thing shows: UPVOTED when `upmod` is set, whatever the
      down arrow says; DOWNVOTED when only `downmod` is set; NONE when
      neither is. */
  function Shown(t: Thing): (v: VoteState)
    requires HasArrows(t)
    ensures v == Upvoted <==> t.upArrow.value.active
    ensures v == Downvoted <==> !t.upArrow.value.active && t.downArrow.value.active
    ensures v == NoVote <==> !t.upArrow.value.active && !t.downArrow.value.active
  {
    if t.upArrow.value.active then Upvoted
    else if t.downArrow.value.active then Downvoted
    else NoVote
  }

  /** The voting callback as a function of the page it runs on. It reports
      NOT_FOUND when no thing carries the fullname and ARROW_NOT_FOUND, with
      which arrows were seen, when an arrow is missing; neither clicks. It
      clicks exactly when it reports CLICKED, at most once, on the arrow the
      decision names, on the first thing with the fullname, and only when
      that arrow's marker is not set; it reports ALREADY_SELECTED otherwise. */
  function Reconcile(things: seq<Thing>, fullname: Option<string>, decision: Decision): (r: Reaction)
    ensures r.click.Some? <==> r.result.Clicked?
    ensures r.result.NotFound? <==>
      forall j :: 0 <= j < |things| ==> things[j].fullname != Some(SelectorValue(fullname))
    ensures r.result.ArrowNotFound? ==>
      var i := FindThing(things, SelectorValue(fullname)).value;
      !HasArrows(things[i]) &&
      r.result == ArrowNotFound(things[i].upArrow.Some?, things[i].downArrow.Some?)
    ensures r.result.AlreadySelected? || r.result.Clicked? ==>
      var i := FindThing(things, SelectorValue(fullname)).value;
      HasArrows(things[i]) && (r.result.AlreadySelected? <==> WantedActive(things[i], decision))
    ensures r.result.AlreadySelected? ==>
      var i := FindThing(things, SelectorValue(fullname)).value;
      r.result.current == (if things[i].upArrow.value.active then Upvoted else Downvoted)
    ensures r.result.Clicked? ==>
      var i := FindThing(things, SelectorValue(fullname)).value;
      r.result.previous == Shown(things[i]) && r.click == Some(Press(i, ArrowFor(decision)))
  {
    match FindThing(things, SelectorValue(fullname))
    case None => Reaction(NotFound, None)
    case Some(i) =>
      var thing := things[i];
      if thing.upArrow.None? || thing.downArrow.None? then
        Reaction(ArrowNotFound(thing.upArrow.Some?, thing.downArrow.Some?), None)
      else
        var hasActiveUpvote := thing.upArrow.value.active;
        var hasActiveDownvote := thing.downArrow.value.active;
        if (decision == WouldUpvote && hasActiveUpvote) || (decision == WouldDownvote && hasActiveDownvote) then
          Reaction(AlreadySelected(if hasActiveUpvote then Upvoted else Downvoted), None)
        else
          Reaction(Clicked(Shown(thing)), Some(Press(i, ArrowFor(decision))))
  }

  /** How old reddit answers a click on an arrow: clicking an arrow whose
      marker is set withdraws the vote; otherwise the marker is set and the
      other arrow's marker cleared. This is the page's behaviour, not the
      script's, and the model assumes it. */
  function Pressed(t: Thing, direction: Direction): (r: Thing)
    requires HasArrows(t)
    ensures HasArrows(r)
    ensures r.(upArrow := t.upArrow, downArrow := t.downArrow) == t
  {
    var up := t.upArrow.value.active;
    var down := t.downArrow.value.active;
    match direction
    case Up =>
      t.(upArrow := Some(Arrow(!up)), downArrow := Some(Arrow(down && up)))
    case Down =>
      t.(downArrow := Some(Arrow(!down)), upArrow := Some(Arrow(up && down)))
  }

  /** The page after the click a reaction issues, if any. */
  function AfterClick(things: seq<Thing>, click: Option<Press>): seq<Thing>
    requires click.Some? ==> click.value.index < |things| && HasArrows(things[click.value.index])
  {
    if click.None? then things
    else things[click.value.index := Pressed(things[click.value.index], click.value.direction)]
  }

  /** The click a reaction issues can be applied to the page it came from. */
  lemma ReconcileClickApplies(things: seq<Thing>, fullname: Option<string>, decision: Decision)
    ensures var c := Reconcile(things, fullname, decision).click;
      c.Some? ==> c.value.index < |things| && HasArrows(things[c.value.index])
  {
  }

  /** Reconciliation reaches the wanted vote: after a CLICKED result the
      post shows exactly the vote the decision asks for. */
  lemma ReconcileReachesWanted(things: seq<Thing>, fullname: Option<string>, decision: Decision)
    ensures var r := Reconcile(things, fullname, decision);
      r.result.Clicked? ==>
        var after := AfterClick(things, r.click);
        var i := r.click.value.index;
        HasArrows(after[i]) && WantedActive(after[i], decision) && Shown(after[i]) == StateFor(decision)
  {
  }

  /** Re-running the callback on the page it left behind never clicks again:
      after CLICKED it reports ALREADY_SELECTED with the wanted vote, and
      after any other result it reports the same result again. */
  lemma ReconcileTwice(things: seq<Thing>, fullname: Option<string>, decision: Decision)
    ensures var r1 := Reconcile(things, fullname, decision);
      var r2 := Reconcile(AfterClick(things, r1.click), fullname, decision);
      r2.click.None? &&
      (r1.result.Clicked? ==> r2.result == AlreadySelected(StateFor(decision))) &&
      (!r1.result.Clicked? ==> r2.result == r1.result)
  {
    var key := SelectorValue(fullname);
    var r1 := Reconcile(things, fullname, decision);
    if r1.result.Clicked? {
      var i := r1.click.value.index;
      var after := AfterClick(things, r1.click);
      assert forall j :: 0 <= j < |things| ==> after[j].fullname == things[j].fullname;
      SameFullnamesSameLookup(things, after, key);
    }
  }

  /** Lookup by fullname sees only the fullnames. */
  lemma {:induction false} SameFullnamesSameLookup(a: seq<Thing>, b: seq<Thing>, key: string)
    requires |a| == |b|
    requires forall j :: 0 <= j < |a| ==> a[j].fullname == b[j].fullname
    ensures FindThing(a, key) == FindThing(b, key)
    decreases |a|
  {
    if a != [] {
      SameFullnamesSameLookup(a[1..], b[1..], key);
    }
  }

  /** A post without a fullname is looked up as if its fullname were the
      text "null". */
  lemma NullFullnameReadsAsText(things: seq<Thing>, decision: Decision)
    ensures Reconcile(things, None, decision) == Reconcile(things, Some("null"), decision)
  {
  }

  /** When both markers are set and the decision is a downvote, the callback
      reports ALREADY_SELECTED with current UPVOTED and clicks nothing: the
      test checks the down marker, the report prefers the up marker. */
  lemma BothMarkersOnDownvote(things: seq<Thing>, fullname: Option<string>)
    requires FindThing(things, SelectorValue(fullname)).Some?
    requires var t := things[FindThing(things, SelectorValue(fullname)).value];
      t.upArrow == Some(Arrow(true)) && t.downArrow == Some(Arrow(true))
    ensures Reconcile(things, fullname, WouldDownvote) == Reaction(AlreadySelected(Upvoted), None)
  {
  }

  /** What step 5 of the script ends with: no eligible post (the script
      throws), or the target post, the decision and the voting result. */
  datatype RunOutcome =
    | NoEligiblePost
    | Voted(target: Candidate, decision: Decision, result: VotingResult)

  datatype Run = Run(outcome: RunOutcome, click: Option<Press>)

  /** Step 5 as a function of the page: scan, decide, vote. The target is
      the `targetCount`-th eligible post and the decision is taken on its
      title. The result and the click are those of the voting callback on
      the target's fullname and that decision. At most one click is issued,
      exactly when the vote reports CLICKED; its direction is fixed by the
      title alone, and it lands on the first thing carrying the target's
      printed fullname, which need not be the target itself. */
  function Pipeline(things: seq<Thing>, targetCount: int): (r: Run)
    requires targetCount >= 1
    ensures r.outcome.NoEligiblePost? <==> |Eligible(things)| < targetCount
    ensures r.outcome.Voted? ==>
      r.outcome.target == Eligible(things)[targetCount - 1] &&
      r.outcome.decision == Decide(r.outcome.target.title)
    ensures r.click.Some? <==> r.outcome.Voted? && r.outcome.result.Clicked?
    ensures r.click.Some? ==>
      FindThing(things, SelectorValue(r.outcome.target.fullname)) == Some(r.click.value.index)
    ensures r.outcome.Voted? ==>
      Reaction(r.outcome.result, r.click) == Reconcile(things, r.outcome.target.fullname, r.outcome.decision)
    ensures r.click.Some? ==>
      targetCount <= |Eligible(things)| &&
      r.click.value.direction == ArrowFor(Decide(Eligible(things)[targetCount - 1].title))
    ensures r.click.Some? ==> r.click.value.index < |things| && HasArrows(things[r.click.value.index])
  {
    if |Eligible(things)| < targetCount then Run(NoEligiblePost, None)
    else
      var target := Eligible(things)[targetCount - 1];
      var decision := Decide(target.title);
      var reaction := Reconcile(things, target.fullname, decision);
      Run(Voted(target, decision, reaction.result), reaction.click)
  }

  /** A click changes only arrows, which the scan never reads. */
  lemma {:induction false} PressKeepsEligible(things: seq<Thing>, i: int, direction: Direction)
    requires 0 <= i < |things| && HasArrows(things[i])
    ensures Eligible(things[i := Pressed(things[i], direction)]) == Eligible(things)
  {
    var t := things[i];
    var p := Pressed(t, direction);
    assert IsEligible(p) == IsEligible(t);
    assert things == things[..i] + [t] + things[i + 1..];
    assert things[i := p] == things[..i] + [p] + things[i + 1..];
    EligibleAppend(things[..i] + [t], things[i + 1..]);
    EligibleAppend(things[..i] + [p], things[i + 1..]);
    EligibleSnoc(things[..i], t);
    EligibleSnoc(things[..i], p);
  }

  /** Running the script a second time against the page the first run left
      behind issues no click: it picks the same post, takes the same
      decision, and finds the vote already cast (or fails as before). */
  lemma RerunIssuesNoClick(things: seq<Thing>, targetCount: int)
    requires targetCount >= 1
    ensures var r1 := Pipeline(things, targetCount);
      var r2 := Pipeline(AfterClick(things, r1.click), targetCount);
      r2.click.None? &&
      (r1.outcome.Voted? ==> r2.outcome.Voted? && r2.outcome.target == r1.outcome.target &&
                             r2.outcome.decision == r1.outcome.decision) &&
      (r1.click.Some? ==> r2.outcome.result == AlreadySelected(StateFor(r1.outcome.decision)))
  {
    var r1 := Pipeline(things, targetCount);
    if r1.click.Some? {
      PressKeepsEligible(things, r1.click.value.index, r1.click.value.direction);
      ReconcileTwice(things, r1.outcome.target.fullname, r1.outcome.decision);
    }
  }

  /** The page the script drives, as far as voting is concerned: the
      listing's things and the number of arrow clicks issued on it. */
  class Page {
    var things: seq<Thing>
    var clicks: nat

    constructor (things: seq<Thing>)
      ensures this.things == things && clicks == 0
    {
      this.things := things;
      clicks := 0;
    }

    /** `targetArrow.click()` on the thing at `index`. */
    method Click(press: Press)
      requires press.index < |things| && HasArrows(things[press.index])
      modifies this
      ensures things == AfterClick(old(things), Some(press))
      ensures clicks == old(clicks) + 1
    {
      things := things[press.index := Pressed(things[press.index], press.direction)];
      clicks := clicks + 1;
    }

    /** The voting `page.evaluate` callback. */
    method Vote(fullname: Option<string>, decision: Decision) returns (result: VotingResult)
      modifies this
      ensures result == Reconcile(old(things), fullname, decision).result
      ensures things == AfterClick(old(things), Reconcile(old(things), fullname, decision).click)
      ensures clicks == old(clicks) + (if result.Clicked? then 1 else 0)
    {
      var found := FindThing(things, SelectorValue(fullname));
      if found.None? {
        return NotFound;
      }
      var thing := things[found.value];
      var upArrow := thing.upArrow;
      var downArrow := thing.downArrow;
      if upArrow.None? || downArrow.None? {
        return ArrowNotFound(upArrow.Some?, downArrow.Some?);
      }
      var hasActiveUpvote := upArrow.value.active;
      var hasActiveDownvote := downArrow.value.active;
      if (decision == WouldUpvote && hasActiveUpvote) || (decision == WouldDownvote && hasActiveDownvote) {
        return AlreadySelected(if hasActiveUpvote then Upvoted else Downvoted);
      }
      var targetArrow := if decision == WouldUpvote then Up else Down;
      Click(Press(found.value, targetArrow));
      result := Clicked(if hasActiveUpvote then Upvoted else if hasActiveDownvote then Downvoted else NoVote);
    }

    /** Step 5 of the script: find the target eligible post, decide, vote. */
    method Run(targetCount: int) returns (outcome: RunOutcome)
      requires targetCount >= 1
      modifies this
      ensures outcome == Pipeline(old(things), targetCount).outcome
      ensures things == AfterClick(old(things), Pipeline(old(things), targetCount).click)
      ensures clicks == old(clicks) + (if Pipeline(old(things), targetCount).click.Some? then 1 else 0)
    {
      var targetEligible := FindTargetEligible(things, targetCount);
      if targetEligible.None? {
        return NoEligiblePost;
      }
      var candidate := targetEligible.value;
      var decision := Decide(candidate.title);
      var votingResult := Vote(candidate.fullname, decision);
      outcome := Voted(candidate, decision, votingResult);
    }
  }
}

=== FILE: scanner.dfy ===
/** The eligible-post scan: walk the listing's `div.thing` elements in
    document order, skip pinned, promoted and untitled posts, and return the
    `targetCount`-th post that survives, or null. */
module Scanner {
  import opened Dom
  import opened Text

  /** What the scan records of a post it keeps. */
  datatype Candidate = Candidate(title: string, permalink: Option<string>, fullname: Option<string>)

  /** `getAttribute(name) || null`: a missing attribute and an empty one
      both read as null; any other value is kept as it is. */
  function OrNull(attr: Option<string>): (r: Option<string>)
    ensures r.None? <==> attr.None? || attr.value == ""
    ensures r.Some? ==> r == attr
  {
    if attr.Some? && attr.value != "" then attr else None
  }

  /** JavaScript truthiness of `dataset.promoted`: defined and non-empty. */
  predicate Truthy(attr: Option<string>)
  {
    attr.Some? && attr.value != ""
  }

  /** A post the scan counts: its lower-cased class name mentions neither
      "stickied" nor "promoted", its `data-promoted` is absent, empty or
      "false", and it has a title element whose text is not all whitespace. */
  predicate IsEligible(t: Thing): (b: bool)
    ensures b ==> t.titleText.Some? && Trim(t.titleText.value) != []
  {
    var cls := Lower(t.className);
    && !(exists i :: 0 <= i <= |cls| && OccursAt(cls, "stickied", i))
    && !(exists i :: 0 <= i <= |cls| && OccursAt(cls, "promoted", i))
    && (t.dataPromoted.None? || t.dataPromoted.value == "" || t.dataPromoted.value == "false")
    && t.titleText.Some?
    && exists k :: 0 <= k < |t.titleText.value| && !IsJsWhitespace(t.titleText.value[k])
  }

  /** The record pushed for a post: its title, trimmed, and its permalink
      and fullname, copied unchanged unless missing or empty. */
  function ToCandidate(t: Thing): (c: Candidate)
    requires t.titleText.Some?
    ensures IsTrimmed(c.title)
    ensures exists i, j :: StripsTo(t.titleText.value, i, j) && c.title == t.titleText.value[i..j]
    ensures c.permalink.Some? ==> c.permalink == t.permalink && c.permalink.value != ""
    ensures c.fullname.Some? ==> c.fullname == t.fullname && c.fullname.value != ""
    ensures c.permalink.None? ==> t.permalink.None? || t.permalink.value == ""
    ensures c.fullname.None? ==> t.fullname.None? || t.fullname.value == ""
  {
    Candidate(Trim(t.titleText.value), OrNull(t.permalink), OrNull(t.fullname))
  }

  /** The `continue` tests of the scan, taken in the order the loop takes
      them, keep exactly the eligible posts. */
  lemma PassesChecksIffEligible(t: Thing)
    ensures IsEligible(t) <==>
      && !Includes(Lower(t.className), "stickied")
      && !Includes(Lower(t.className), "promoted")
      && !(Truthy(t.dataPromoted) && t.dataPromoted.value != "false")
      && t.titleText.Some?
      && Trim(t.titleText.value) != ""
  {
  }

  /** The records of all eligible posts, in document order, duplicates kept.
      Every title in it is non-empty and trimmed. */
  function Eligible(things: seq<Thing>): (r: seq<Candidate>)
    ensures |r| <= |things|
    ensures forall c | c in r :: c.title != [] && IsTrimmed(c.title)
  {
    if things == [] then []
    else
      var last := things[|things| - 1];
      var kept := if IsEligible(last) then [ToCandidate(last)] else [];
      Eligible(things[..|things| - 1]) + kept
  }

  /** Adding one post at the end adds its record exactly when it is eligible. */
  lemma EligibleSnoc(s: seq<Thing>, t: Thing)
    ensures Eligible(s + [t]) == Eligible(s) + (if IsEligible(t) then [ToCandidate(t)] else [])
  {
    assert (s + [t])[..|s|] == s;
  }

  /** The scan distributes over concatenation: what is eligible in one part
      of the listing does not depend on the other part. */
  lemma {:induction false} EligibleAppend(a: seq<Thing>, b: seq<Thing>)
    ensures Eligible(a + b) == Eligible(a) + Eligible(b)
    decreases |b|
  {
    if b == [] {
      assert a + b == a;
    } else {
      var b' := b[..|b| - 1];
      var t := b[|b| - 1];
      assert a + b == (a + b') + [t];
      assert b == b' + [t];
      EligibleAppend(a, b');
      EligibleSnoc(a + b', t);
      EligibleSnoc(b', t);
    }
  }

  /** An ineligible post never affects the records, wherever it stands. */
  lemma IneligibleIgnored(a: seq<Thing>, t: Thing, b: seq<Thing>)
    requires !IsEligible(t)
    ensures Eligible(a + [t] + b) == Eligible(a + b)
  {
    EligibleAppend(a + [t], b);
    EligibleSnoc(a, t);
    EligibleAppend(a, b);
  }

  /** An eligible post at index `j` is recorded at the position given by the
      number of eligible posts before it. */
  lemma EligibleAt(s: seq<Thing>, j: int)
    requires 0 <= j < |s| && IsEligible(s[j])
    ensures |Eligible(s[..j])| < |Eligible(s)|
    ensures Eligible(s)[|Eligible(s[..j])|] == ToCandidate(s[j])
  {
    assert s == s[..j] + [s[j]] + s[j + 1..];
    EligibleAppend(s[..j] + [s[j]], s[j + 1..]);
    EligibleSnoc(s[..j], s[j]);
  }

  /** The `k`-th record of `s` is that of the post at index `j`, which is
      eligible and has exactly `k` eligible posts before it. */
  ghost predicate RecordedFrom(s: seq<Thing>, k: int, j: int)
  {
    0 <= j < |s| && IsEligible(s[j]) && |Eligible(s[..j])| == k &&
    0 <= k < |Eligible(s)| && Eligible(s)[k] == ToCandidate(s[j])
  }

  /** Conversely, the `k`-th record comes from an eligible post with exactly
      `k` eligible posts before it, its fields taken from that post. */
  lemma {:induction false} EligibleOrigin(s: seq<Thing>, k: int)
    requires 0 <= k < |Eligible(s)|
    ensures exists j :: RecordedFrom(s, k, j)
    decreases |s|
  {
    var n := |s| - 1;
    var init := s[..n];
    assert s == init + [s[n]];
    EligibleSnoc(init, s[n]);
    var tail := if IsEligible(s[n]) then [ToCandidate(s[n])] else [];
    assert Eligible(s) == Eligible(init) + tail;
    if k < |Eligible(init)| {
      EligibleOrigin(init, k);
      var j :| RecordedFrom(init, k, j);
      assert init[..j] == s[..j];
      assert Eligible(s)[k] == Eligible(init)[k];
      assert RecordedFrom(s, k, j);
    } else {
      assert IsEligible(s[n]) && k == |Eligible(init)|;
      assert s[..n] == init;
      assert RecordedFrom(s, k, n);
    }
  }

  /** Once the first part of the listing holds `n` eligible posts, whatever
      follows it cannot change the `n`-th one. */
  lemma ShortCircuit(a: seq<Thing>, b: seq<Thing>, n: int)
    requires 1 <= n <= |Eligible(a)|
    ensures n <= |Eligible(a + b)|
    ensures Eligible(a + b)[n - 1] == Eligible(a)[n - 1]
  {
    EligibleAppend(a, b);
  }

  /** The `page.evaluate` callback that finds the target eligible post: one
      pass in document order, stopping as soon as `targetCount` posts have
      been kept, so the accumulator never holds more than `targetCount`.
      The result is the `targetCount`-th eligible post, or None exactly
      when fewer than `targetCount` posts are eligible. */
  method FindTargetEligible(things: seq<Thing>, targetCount: int) returns (target: Option<Candidate>)
    requires targetCount >= 1
    ensures target.Some? <==> targetCount <= |Eligible(things)|
    ensures target.Some? ==> target.value == Eligible(things)[targetCount - 1]
  {
    var eligible: seq<Candidate> := [];
    ghost var scanned := |things|;
    for i := 0 to |things|
      invariant eligible == Eligible(things[..i])
      invariant |eligible| < targetCount
    {
      var thing := things[i];
      assert things[..i + 1] == things[..i] + [thing];
      EligibleSnoc(things[..i], thing);
      var cls := Lower(thing.className);
      var dataPromoted := thing.dataPromoted;
      PassesChecksIffEligible(thing);

      if Includes(cls, "stickied") { continue; }
      if Includes(cls, "promoted") { continue; }
      if Truthy(dataPromoted) && dataPromoted.value != "false" { continue; }

      if thing.titleText.None? { continue; }
      var title := Trim(thing.titleText.value);
      if title == "" { continue; }

      eligible := eligible + [Candidate(title, OrNull(thing.permalink), OrNull(thing.fullname))];

      if |eligible| >= targetCount {
        scanned := i + 1;
        break;
      }
    }
    if |eligible| >= targetCount {
      assert things == things[..scanned] + things[scanned..];
      ShortCircuit(things[..scanned], things[scanned..], targetCount);
      target := Some(eligible[targetCount - 1]);
    } else {
      assert things[..|things|] == things;
      target := None;
    }
  }
}

=== FILE: scenarios.dfy ===
/** Worked examples of the pipeline on small listings. */
module Scenarios {
  import opened Dom
  import opened Text
  import opened Scanner
  import opened Classifier
  import opened Reconciler

  /** A post with a plain class name, no `data-promoted` and both arrows unset. */
  function Post(title: string, fullname: string): Thing
  {
    Thing("thing link", None, Some(title), Some("/r/gaming/"), Some(fullname),
          Some(Arrow(false)), Some(Arrow(false)))
  }

  /** A string that has no place where the first letter of `sub` starts a
      long enough suffix does not include `sub`. */
  lemma FirstLetterAbsent(s: string, sub: string)
    requires sub != []
    requires forall i :: 0 <= i < |s| && i + |sub| <= |s| ==> s[i] != sub[0]
    ensures !Includes(s, sub)
  {
  }

  /** A plain post with a trimmed, non-empty title is eligible and keeps its title. */
  lemma PlainPostEligible(title: string, fullname: string)
    requires title != [] && IsTrimmed(title)
    ensures IsEligible(Post(title, fullname))
    ensures ToCandidate(Post(title, fullname)).title == title
  {
    var t := Post(title, fullname);
    var cls := "thing link";
    assert forall k :: 0 <= k < |cls| ==> !('A' <= cls[k] <= 'Z');
    assert forall k :: 0 <= k < |cls| ==> Lower(cls)[k] == cls[k];
    assert Lower(cls) == cls;
    FirstLetterAbsent("thing link", "stickied");
    FirstLetterAbsent("thing link", "promoted");
    TrimOfTrimmed(title);
    PassesChecksIffEligible(t);
  }

  /** A post whose class name carries "stickied" is never eligible. */
  lemma StickiedPostIneligible(t: Thing)
    requires t.className == "thing stickied"
    ensures !IsEligible(t)
  {
    assert Lower(t.className) == t.className;
    assert OccursAt(Lower(t.className), "stickied", 6);
  }

  /** The pinned post is skipped, so the second eligible post of the listing
      is its third post. */
  lemma PinnedListing(pinned: Thing, b: Thing, c: Thing)
    requires !IsEligible(pinned) && IsEligible(b) && IsEligible(c)
    ensures Eligible([pinned, b, c]) == [ToCandidate(b), ToCandidate(c)]
  {
    EligibleSnoc([], pinned);
    EligibleSnoc([pinned], b);
    EligibleSnoc([pinned, b], c);
    assert [pinned] + [b] == [pinned, b];
    assert [pinned, b] + [c] == [pinned, b, c];
    assert [] + [pinned] == [pinned];
  }

  /** "Patch notes" does not mention the keyword. */
  lemma PatchNotesDownvotes()
    ensures Decide("Patch notes") == WouldDownvote
  {
    var s := "Patch notes";
    forall i | 0 <= i <= |s| ensures !MatchesAt(s, i) {
      if i + |Keyword| <= |s| {
        assert i <= 3;
        assert LowerChar(s[i + 0]) != Keyword[0] by {
          assert s[i + 0] == s[i];
          if i == 0 { assert s[0] == 'P'; }
          else if i == 1 { assert s[1] == 'a'; }
          else if i == 2 { assert s[2] == 't'; }
          else { assert s[3] == 'c'; }
        }
      }
    }
  }

  /** A listing with a pinned post ahead of two plain ones. */
  function PinnedFirst(): seq<Thing>
  {
    [Post("Rules", "t3_a").(className := "thing stickied"),
     Post("Nintendo Direct announced", "t3_b"),
     Post("Patch notes", "t3_c")]
  }

  /** The second eligible post of that listing is "Patch notes". */
  lemma PinnedTarget()
    ensures |Eligible(PinnedFirst())| == 2
    ensures Eligible(PinnedFirst())[1] == Candidate("Patch notes", Some("/r/gaming/"), Some("t3_c"))
  {
    var things := PinnedFirst();
    var pinned, b, c := things[0], things[1], things[2];
    StickiedPostIneligible(pinned);
    PlainPostEligible("Nintendo Direct announced", "t3_b");
    PlainPostEligible("Patch notes", "t3_c");
    PinnedListing(pinned, b, c);
    assert things == [pinned, b, c];
  }

  /** A downvote on "t3_c", whose arrows are both unset, clicks its down arrow. */
  lemma PinnedVote()
    ensures Reconcile(PinnedFirst(), Some("t3_c"), WouldDownvote) == Reaction(Clicked(NoVote), Some(Press(2, Down)))
  {
    assert FindThing(PinnedFirst(), "t3_c") == Some(2);
  }

  /** The pinned post is skipped, so the second eligible post is "Patch
      notes"; its decision is a downvote, and the down arrow of the third
      thing is clicked. */
  lemma PinnedPostIsSkipped()
    ensures Pipeline(PinnedFirst(), 2) ==
      Run(Voted(Candidate("Patch notes", Some("/r/gaming/"), Some("t3_c")), WouldDownvote, Clicked(NoVote)),
          Some(Press(2, Down)))
  {
    PinnedTarget();
    PatchNotesDownvotes();
    PinnedVote();
  }

  /** A pinned post sharing its fullname with the eligible target: the scan
      picks the second post, but the lookup by fullname finds the pinned
      one first, so its down arrow is the one clicked. */
  lemma SharedFullnameClicksPinned()
    ensures var pinned := Post("Rules", "t3_x").(className := "thing stickied");
      var target := Post("Patch notes", "t3_x");
      Pipeline([pinned, target], 1) ==
        Run(Voted(Candidate("Patch notes", Some("/r/gaming/"), Some("t3_x")), WouldDownvote, Clicked(NoVote)),
            Some(Press(0, Down)))
  {
    var pinned := Post("Rules", "t3_x").(className := "thing stickied");
    var target := Post("Patch notes", "t3_x");
    StickiedPostIneligible(pinned);
    PlainPostEligible("Patch notes", "t3_x");
    EligibleSnoc([], pinned);
    EligibleSnoc([pinned], target);
    assert [] + [pinned] == [pinned];
    assert [pinned] + [target] == [pinned, target];
    assert Eligible([pinned, target]) == [ToCandidate(target)];
    PatchNotesDownvotes();
    assert FindThing([pinned, target], "t3_x") == Some(0);
  }

  /** A title mentioning "Nintendo" with a capital letter gets an upvote. */
  lemma CapitalisedKeywordUpvotes()
    ensures Decide("New Nintendo Switch bundle") == WouldUpvote
  {
    assert "New Nintendo Switch bundle" == "New " + "Nintendo" + " Switch bundle";
    KeywordAnywhereUpvotes("New ", "Nintendo", " Switch bundle");
  }

  /** An upvote already cast is reported and left alone. */
  lemma UpvoteAlreadyCast()
    ensures var t := Post("Nintendo Direct announced", "t3_b").(upArrow := Some(Arrow(true)));
      Reconcile([t], Some("t3_b"), WouldUpvote) == Reaction(AlreadySelected(Upvoted), None)
  {
  }

  /** A fullname no post carries is reported as not found. */
  lemma UnknownFullname()
    ensures Reconcile([Post("Patch notes", "t3_c")], Some("t3_z"), WouldUpvote) == Reaction(NotFound, None)
  {
  }
}

=== FILE: text.dfy ===
/** String operations the script relies on: `toLowerCase`, `includes` and
    `trim`, restricted to what the eligibility filter and the keyword test need. */
module Text {

  /** `toLowerCase` on one character, ASCII letters only. */
  function LowerChar(c: char): char
  {
    if 'A' <= c <= 'Z' then (c as int + 32) as char else c
  }

  /** `toUpperCase` on one character, ASCII letters only. */
  function UpperChar(c: char): char
  {
    if 'a' <= c <= 'z' then (c as int - 32) as char else c
  }

  /** `String.prototype.toLowerCase`, ASCII letters only. */
  function Lower(s: string): (r: string)
    ensures |r| == |s|
    ensures forall k :: 0 <= k < |s| ==> r[k] == LowerChar(s[k])
  {
    seq(|s|, k requires 0 <= k < |s| => LowerChar(s[k]))
  }

  /** `String.prototype.toUpperCase`, ASCII letters only. */
  function Upper(s: string): (r: string)
    ensures |r| == |s|
    ensures forall k :: 0 <= k < |s| ==> r[k] == UpperChar(s[k])
  {
    seq(|s|, k requires 0 <= k < |s| => UpperChar(s[k]))
  }

  /** Lower-casing forgets any earlier change of letter case. */
  lemma LowerForgetsCase(s: string)
    ensures Lower(Lower(s)) == Lower(s)
    ensures Lower(Upper(s)) == Lower(s)
  {
    assert forall k :: 0 <= k < |s| ==> Lower(Upper(s))[k] == Lower(s)[k];
    assert forall k :: 0 <= k < |s| ==> Lower(Lower(s))[k] == Lower(s)[k];
  }

  /** `sub` occurs in `s` starting at index `i`. */
  predicate OccursAt(s: string, sub: string, i: int)
  {
    0 <= i && i + |sub| <= |s| && s[i..i + |sub|] == sub
  }

  /** `String.prototype.includes`: true exactly when `sub` occurs at some
      index of `s`. */
  function Includes(s: string, sub: string): (b: bool)
    ensures b <==> exists i :: OccursAt(s, sub, i)
    decreases |s|
  {
    if |sub| > |s| then
      assert forall i :: !OccursAt(s, sub, i);
      false
    else if s[..|sub|] == sub then
      assert OccursAt(s, sub, 0);
      true
    else
      var rest := Includes(s[1..], sub);
      assert rest <==> exists i :: OccursAt(s, sub, i) by {
        if exists i :: OccursAt(s[1..], sub, i) {
          var i :| OccursAt(s[1..], sub, i);
          assert s[1..][i..i + |sub|] == s[i + 1..i + 1 + |sub|];
          assert OccursAt(s, sub, i + 1);
        }
        if exists i :: OccursAt(s, sub, i) {
          var i :| OccursAt(s, sub, i);
          assert i != 0;
          assert s[1..][i - 1..i - 1 + |sub|] == s[i..i + |sub|];
          assert OccursAt(s[1..], sub, i - 1);
        }
      }
      rest
  }

  /** ECMAScript WhiteSpace and LineTerminator code points, the set that
      `String.prototype.trim` removes (the Zs category as of Unicode 15). */
  predicate IsJsWhitespace(c: char)
  {
    var n := c as int;
    n == 0x09 || n == 0x0A || n == 0x0B || n == 0x0C || n == 0x0D ||
    n == 0x20 || n == 0xA0 || n == 0x1680 || (0x2000 <= n <= 0x200A) ||
    n == 0x2028 || n == 0x2029 || n == 0x202F || n == 0x205F ||
    n == 0x3000 || n == 0xFEFF
  }

  /** Number of whitespace characters at the start of `s`. */
  function LeadingSpace(s: string): (n: nat)
    ensures n <= |s|
    ensures forall k :: 0 <= k < n ==> IsJsWhitespace(s[k])
    ensures n < |s| ==> !IsJsWhitespace(s[n])
  {
    if s == [] || !IsJsWhitespace(s[0]) then 0
    else 1 + LeadingSpace(s[1..])
  }

  /** Length of `s` once its trailing whitespace is dropped. */
  function TrailingStart(s: string): (n: nat)
    ensures n <= |s|
    ensures forall k :: n <= k < |s| ==> IsJsWhitespace(s[k])
    ensures n > 0 ==> !IsJsWhitespace(s[n - 1])
  {
    if s == [] || !IsJsWhitespace(s[|s| - 1]) then |s|
    else TrailingStart(s[..|s| - 1])
  }

  /** A string with neither leading nor trailing whitespace. */
  predicate IsTrimmed(s: string)
  {
    s == [] || (!IsJsWhitespace(s[0]) && !IsJsWhitespace(s[|s| - 1]))
  }

  /** Only whitespace lies outside `s[i..j]`. */
  predicate StripsTo(s: string, i: int, j: int)
  {
    0 <= i <= j <= |s| &&
    (forall k :: 0 <= k < i ==> IsJsWhitespace(s[k])) &&
    (forall k :: j <= k < |s| ==> IsJsWhitespace(s[k]))
  }

  /** `String.prototype.trim`: the middle of `s`, from which only
      whitespace has been dropped, at both ends, and which starts and ends
      with a non-whitespace character. It is empty exactly when `s` is made
      of whitespace alone. */
  function Trim(s: string): (r: string)
    ensures IsTrimmed(r)
    ensures exists i, j :: StripsTo(s, i, j) && r == s[i..j]
    ensures r == [] <==> forall k :: 0 <= k < |s| ==> IsJsWhitespace(s[k])
  {
    var i := LeadingSpace(s);
    var t := s[i..];
    var j := TrailingStart(t);
    assert t[..j] == s[i..i + j];
    assert StripsTo(s, i, i + j);
    if j != 0 then
      assert s[i] == t[0];
      assert !IsJsWhitespace(s[i + j - 1]);
      t[..j]
    else
      t[..j]
  }

  /** `trim` leaves an already trimmed string as it is. */
  lemma TrimOfTrimmed(s: string)
    requires IsTrimmed(s)
    ensures Trim(s) == s
  {
    assert LeadingSpace(s) == 0;
    assert s[0..] == s;
    assert TrailingStart(s) == |s|;
  }

  /** Trimming twice is trimming once. */
  lemma TrimIdempotent(s: string)
    ensures Trim(Trim(s)) == Trim(s)
  {
    TrimOfTrimmed(Trim(s));
  }
}
